=== FILE: README.md ===
# flashbot-sdk relay client and inclusion watcher, in Dafny

This project models the core of a small TypeScript client for a Flashbots-style private-bundle
relay. It covers three pieces:

- **Relay client** (`RelayClient`, `Signer`, `Transport`). Each of the four relay methods
  (`getUserStats`, `simulate`, `sendBundle`, `getBundleStatsV2`) builds the JSON-RPC envelope
  `{jsonrpc: "2.0", id: 1, method, params}`. It serializes the envelope and signs the
  serialization into the `X-Flashbots-Signature` token `<address>:<signature>`. It POSTs the body
  to the relay, then classifies the reply: transport failure, non-2xx status, unparsable body,
  embedded relay error, or result. Each method has its own embedded-error rule.
- **Simulator** (`Simulator`). A successful `simulate` returns the simulation result and a
  deferred `send`. The `send` is bound to the simulating client. It calls that client's
  `sendBundle` with the very parameters that were simulated.
- **Inclusion watcher** (`Inclusion`). `waitForInclusion` is a state machine driven by
  new-block notifications. It starts in *watching* and settles with "success" when a block holds
  a watched transaction. It settles with "passed" when a block at or past the target height
  has a non-empty transaction list with no watched hash. A block with a missing or empty list
  changes nothing, even past the target.

The wire vocabulary lives in `Types`: hex strings, the relay URLs, the method names, builder and
hint names, the parameter and response records, and the inclusion outcome.

The model treats these as opaque functions carried by the client:

- `JSON.stringify` (`Client.stringify`);
- `ethers.id`, the Keccak-256 of the text (`Client.id`);
- the wallet's message signer (`Wallet.signMessage`, which may fail).

The network is a `transport` function from the posted request to an `Exchange`: unreachable, or
answered with a status, a status text and a body that is either parsed or unparsable. The block
provider is the finite sequence of notifications it delivers, handled in order. Each notification
carries a block number and the transaction list `getBlock` returned for that block. None covers
every way the handler ends up without a list: no block came back, the block has no list, or
`getBlock` rejected. A rejection stops that handler run before either `resolve`, and `reject` is
never called, so the watcher keeps listening.

## Behaviour worth knowing

- The watcher's handler runs two independent `if`s. At or past the target block, a block holding a
  watched hash therefore resolves twice: first "success", then "passed". The promise keeps the
  first value. `Handle` models the handler as written, with its list of `resolve` calls.
  `Decide` is the if/else-if rule. `HandlerSettlesAsDecided` proves that the two agree.
- With target B, blocks B-1 and B holding only unwatched transactions, and a watched hash only
  in block B+1, the code reports "passed" at B, not "success" at B+1
  (`PassedBeforeLateInclusion`). "Success" at B+1 happens only when block B arrives without
  transactions (`InclusionAfterEmptyDeadlineBlock`).
- `getUserStats` tests `error` and `message` by JavaScript truthiness. An empty string does not
  count as an error (`RelayClient.Truthy`).
- `simulate` and `sendBundle` treat any `error` object as a failure. They throw its `message`;
  the code is dropped.
- `getBundleStatsV2` has no embedded-error check. A bare `message` is recognised only by
  `getUserStats`.
- The deferred `send` passes the simulation's own parameter records (`CallBundleData`, including
  `stateBlockNumber` and `timestamp`) to `sendBundle`. TypeScript accepts them structurally. So
  the send envelope's `params` is `CallBundleParams`, the same value `simulate` posted.
  `RelayClient.SendBundleInput` is the parameter type `sendBundle` therefore accepts.

## Model

| member | source | states |
|---|---|---|
| Types.HexStringShape | constants/types.ts:1 | a string is a HexString exactly when it is "0x" followed by any text |
| Types.RelayUrlRoundTrip | constants/types.ts:34-38 | every relay is recovered from its URL, so the three relay URLs are pairwise distinct |
| Types.MethodWireNameRoundTrip | constants/types.ts:40-48 | every method is recovered from its wire name, so the seven method names are pairwise distinct |
| Types.BuilderNameRoundTrip | constants/types.ts:3-22 | every builder is recovered from its name, so the nineteen builder names are pairwise distinct |
| Types.HintNameRoundTrip | constants/types.ts:24-31 | every hint is recovered from its name, so the seven hint names are pairwise distinct |
| Types.ExtendBaseInverse | constants/types.ts:63-82 | private-transaction data is raw private-transaction data plus an optional maxBlockNumber, with every other field unchanged |
| Types.StateBlockOfWire | constants/types.ts:84-89 | a state block on the wire is "latest" or a hex string, and nothing else |
| Types.StateBlockRoundTrip | constants/types.ts:84-89 | a state block is recovered from its wire string ("latest" is never a hex block number) |
| Types.InclusionStatusOfWire | constants/types.ts:171-175 | an inclusion status on the wire is exactly "success" or "passed" |
| Signer.AddressHasNoSeparator | core/flashbot.ts:51 | the signer's address never contains the ':' that ends it in the token |
| Signer.TokenSplit | core/flashbot.ts:51 | splitting a token at its first ':' gives back the address and the whole signature, even if the signature holds ':' |
| Signer.GetSignature | core/flashbot.ts:50-52 | the token names the signer and carries its signature of id(serialized body); a signing failure propagates unchanged |
| Signer.TokenBindsBody | core/flashbot.ts:50-52 | when hashing and signing are injective, different serialized bodies never share a token |
| Transport.DecimalString | core/flashbot.ts:107 | the status as the template literal prints it: a non-empty run of decimal digits with no leading zero, a single digit exactly for statuses below 10 |
| Transport.DecimalRoundTrip | core/flashbot.ts:107 | reading the printed digits back gives the status again |
| Transport.StatusLineRoundTrip | core/flashbot.ts:107 | a status line "<status> <statusText>" yields the status and the status text back, even when the text holds spaces |
| Transport.Message | core/flashbot.ts:107 | an HTTP failure's error message is exactly the status in canonical decimal (digits only, no leading zero), a space, and the status text, and both parts are recovered from it; every other failure's message is the text it carries |
| Transport.Receive | core/flashbot.ts:98-109 | transport failure, non-2xx status, unparsable body and parsed body are told apart in that order; only a parsed 2xx body reaches the method's check |
| Transport.HttpErrorIgnoresBody | core/flashbot.ts:107 | a non-2xx reply fails the same way whatever its body and whatever the method's check |
| RelayClient.Envelope | core/flashbot.ts:92-96 | every request body has version "2.0" and id 1 (core/flashbot.ts:30-33), then the method, and the caller's params passed through unchanged; the same construction is at lines 147-151, 197-201 and 245-249 |
| RelayClient.Prepare | core/flashbot.ts:98-105 | the request is a JSON POST to the client's relay; its body is the serialized envelope, and its signature header signs that posted text; a signing failure stops the call before anything is sent |
| RelayClient.Post | core/flashbot.ts:98-109 | one round trip: the request is signed for the envelope, nothing is sent when signing fails, and the reply to the sent request decides the outcome |
| RelayClient.GetUserStats | core/flashbot.ts:91-115 | builds the flashbots_getUserStatsV2 envelope around the caller's params; the request is sent exactly when signing succeeds, and a signing failure is the outcome unchanged; once sent, it succeeds exactly on a 2xx parsed reply with neither a truthy error nor a truthy message, and returns that reply; error is reported before message |
| RelayClient.SendBundle | core/flashbot.ts:196-219 | builds the eth_sendBundle envelope around the caller's params; the request is sent exactly when signing succeeds, and a signing failure is the outcome unchanged; once sent, it succeeds exactly on a 2xx parsed reply without an error object and returns it; otherwise it fails with the error's message |
| RelayClient.GetBundleStatsV2 | core/flashbot.ts:244-265 | builds the flashbots_getBundleStatsV2 envelope around the caller's params; the request is sent exactly when signing succeeds, and a signing failure is the outcome unchanged; once sent, it succeeds exactly on a 2xx parsed reply, whatever it holds, and returns it unchanged |
| RelayClient.EmbeddedErrorNeverSucceeds | core/flashbot.ts:111-112 | a parsed reply with an embedded error never yields a result, whatever its HTTP status: a truthy error or message for user stats, an error object for sendBundle (the sendBundle check is at core/flashbot.ts:216) |
| Simulator.HttpErrorFailsEveryMethod | core/flashbot.ts:107 | a non-2xx reply fails getUserStats, simulate, sendBundle and getBundleStatsV2 with HttpFailure(status, statusText), and their bodies are never read |
| Simulator.Simulate | core/flashbot.ts:142-172 | builds the eth_callBundle envelope around the caller's params; the request is sent exactly when signing succeeds, and a signing failure is the outcome unchanged; once sent, it succeeds exactly on a 2xx parsed reply without an error object; it returns the reply's result and a send action holding the caller's params |
| Simulator.RunSend | core/flashbot.ts:170 | invoking the send action builds the eth_sendBundle envelope around the captured params and posts it through the captured client, to its relay and signed by its wallet, exactly when that wallet signs; a signing failure is the outcome unchanged |
| Simulator.SendReusesSimulatedParams | core/flashbot.ts:166-171 | the send action posts the simulated params unchanged under eth_sendBundle through the simulating client's relay and signer; its envelope differs from the simulation's only in the method, and it is a direct sendBundle of that client with those params |
| Simulator.SimulationErrorHasNoSend | core/flashbot.ts:162-166 | a reply with an error object fails simulate with that error's message, so no send action exists |
| Simulator.EveryCallSendsFixedEnvelope | core/flashbot.ts:30-33 | all four methods send jsonrpc "2.0", id 1, their own wire method name and the caller's params unchanged, and the posted body is the serialization of that envelope |
| Inclusion.Watched | core/flashbot.ts:291 | the filtered list holds exactly the block's watched transactions, each one a watched hash |
| Inclusion.WatchedAppend | core/flashbot.ts:291 | filtering distributes over concatenation, so the matched hashes keep block order |
| Inclusion.AnyWatchedIffWatched | core/flashbot.ts:286-291 | the some-test and the filter agree: a block holds a watched hash exactly when the filtered list is non-empty |
| Inclusion.Handle | core/flashbot.ts:280-303 | the handler as written: nothing happens for a missing or empty transaction list; otherwise it resolves at most twice, success before passed, at the notified block number, removing the listener once per resolve; it resolves "passed" exactly for a non-empty block at or past the target |
| Inclusion.Decide | core/flashbot.ts:282-302 | no transition exactly for a missing or empty list, or for no match below the target; "success" carries the non-empty filtered list and takes priority; "passed" carries no hashes and happens at or past the target |
| Inclusion.LaterResolvesIgnored | core/flashbot.ts:287-301 | once the promise has a value, a further resolve call (the "passed" after a "success" in the same handler run) leaves the value unchanged |
| Inclusion.HandlerSettlesAsDecided | core/flashbot.ts:280-303 | the handler as written, with one or two resolve calls, settles as the decision rule says, and removes the listener once per resolve call |
| Inclusion.Step | core/flashbot.ts:280-305 | a settled watcher ignores notifications; a watching one settles exactly when the decision rule fires, with its outcome |
| Inclusion.Run | core/flashbot.ts:278-307 | an outcome reached over a notification sequence is valid for the target and hashes, and it is reported at one of the delivered block numbers |
| Inclusion.WaitForInclusion | core/flashbot.ts:278-307 | every outcome is valid ("success" non-empty and all watched; "passed" empty and at or past the target) at a delivered block number |
| Inclusion.SettlesAtFirstTerminal | core/flashbot.ts:278-307 | the watcher settles exactly when some notification is terminal, and then with the outcome of the first terminal notification |
| Inclusion.LaterNotificationsIgnored | core/flashbot.ts:287-297 | once settled, the listener is gone: further notifications change nothing |
| Inclusion.EmptyBlockIgnored | core/flashbot.ts:282 | a block with a missing or empty transaction list causes no transition, even at or past the target |
| Inclusion.InclusionBeatsDeadline | core/flashbot.ts:286-302 | at or past the target with a match, the handler resolves "success" then "passed", and the watcher settles with "success" |
| Inclusion.DeadlineBoundsWait | core/flashbot.ts:295-302 | once a non-empty block at or past the target is delivered, the watcher has settled |
| Inclusion.PassedBeforeLateInclusion | core/flashbot.ts:295-302 | with unwatched blocks at B-1 and B and a watched one at B+1, the outcome is "passed" at B |
| Inclusion.InclusionAfterEmptyDeadlineBlock | core/flashbot.ts:282-294 | when block B arrives without transactions, a watched hash at B+1 yields "success" at B+1 |

## Left out

- `calculateEffectiveGas` (core/flashbot.ts:71-74): it adds two JavaScript `Number`s, which is floating-point arithmetic.
- The constructor's check that the wallet has a provider (core/flashbot.ts:43): it is a guard on a foreign object.
- `fetch`, HTTP transport and the bytes of `JSON.stringify` and `res.json()`. The serializer is an opaque function. The reply is an `Exchange` whose body is already parsed into the declared record, or known to be unparsable.
- Keccak-256 (`ethers.id`) and EIP-191 message signing: these are cryptography in a library outside the model, so they are function parameters.
- `provider.on` and `removeListener`, and the interleaving of concurrent `getBlock` calls. Notifications are handled one after another; removing the listener is counted in `Effect.removals` and ends processing in `Step`.
- Liveness: `waitForInclusion` never settles if the provider stops delivering blocks. A finite sequence cannot state this; such a run ends in `Watching`.
- The `as T` cast on the parsed body is unchecked in the source. The model takes each body to have its declared shape. For example, an `error` sent as an object to `getUserStats` is not modelled.
- `cancelBundle`, `sendPrivateTransaction` and `sendPrivateRawTransaction` are declared but never called. They exist only as `Method` constructors and parameter records.
- TypeScript `number` fields (timestamps, gas figures, refund percentages, block numbers) are modelled as unbounded `int`, not as doubles.
- The source keeps references to the caller's arrays, not copies. The deferred `send` reads `params` when it is invoked, and the block handler reads `hashes` at each notification. The model treats both arrays as values: it assumes callers do not mutate `params` between `simulate` and `send`, nor `hashes` while `waitForInclusion` is pending. A mutated array would be posted or consulted in its mutated form.
- The generated build output and the example script are not part of this model.

=== FILE: inclusion.dfy ===
/** The inclusion watcher (core/flashbot.ts:278-307). Each new-block notification makes the
    handler fetch the block; a block without transactions is ignored, a block holding a watched
    hash resolves "success" with the watched hashes in block order, and a block at or past the
    target height resolves "passed". Both terminal branches remove the listener first. The
    handler runs both checks, so at the target block with a match it resolves twice; the promise
    keeps the first resolution, which is why inclusion wins over the deadline. The provider is
    modelled as the finite sequence of notifications it delivers, handled one after another. */
module Inclusion {
  import opened Wrappers
  import opened Types

  /** A block notification: its number and the transaction hashes `getBlock` returned for it.
      None stands for every case in which the handler gets no transaction list: no block came
      back, the block has no list, or `getBlock` rejected. A rejection ends that handler run before
      either `resolve`, and nothing calls `reject`, so the watcher keeps listening, exactly as for
      a missing list. */
  datatype Notification = Notification(blockNumber: int, transactions: Option<seq<string>>)

  /** The handler's `some` test: some transaction of the block is a watched hash. */
  predicate AnyWatched(txs: seq<string>, hashes: seq<HexString>) {
    exists i :: 0 <= i < |txs| && txs[i] in hashes
  }

  /** The handler's filter: the block's transactions that are watched hashes, in block order and
      with their multiplicity in the block. */
  function Watched(txs: seq<string>, hashes: seq<HexString>): (m: seq<HexString>)
    ensures |m| <= |txs|
    ensures forall i :: 0 <= i < |m| ==> m[i] in hashes && m[i] in txs
    ensures forall i :: 0 <= i < |txs| && txs[i] in hashes ==> txs[i] in m
  {
    if |txs| == 0 then []
    else
      var rest := Watched(txs[1..], hashes);
      if txs[0] in hashes then (var h: HexString := txs[0]; [h] + rest) else rest
  }

  /** Filtering distributes over concatenation, so the watched hashes keep block order. */
  lemma {:induction false} WatchedAppend(a: seq<string>, b: seq<string>, hashes: seq<HexString>)
    ensures Watched(a + b, hashes) == Watched(a, hashes) + Watched(b, hashes)
  {
    if |a| > 0 {
      assert (a + b)[1..] == a[1..] + b;
      WatchedAppend(a[1..], b, hashes);
    } else {
      assert a + b == b;
    }
  }

  /** The `some` test and the `filter` agree: a block holds a watched hash exactly when its
      filtered list is non-empty. */
  lemma AnyWatchedIffWatched(txs: seq<string>, hashes: seq<HexString>)
    ensures AnyWatched(txs, hashes) <==> |Watched(txs, hashes)| > 0
  {
  }

  /** The invariant of every resolution: "success" carries a non-empty list of watched hashes;
      "passed" carries none and happens at or past the target block. */
  predicate ValidOutcome(targetBlock: int, hashes: seq<HexString>, o: WaitForInclusionResponse) {
    && (o.status == Included ==>
          |o.transactions| > 0 && forall i :: 0 <= i < |o.transactions| ==> o.transactions[i] in hashes)
    && (o.status == Passed ==> o.transactions == [] && o.blockNumber >= targetBlock)
  }

  // ---------------------------------------------------------------- the handler as written

  /** What one run of the block handler does: how often it removes the listener, and the values
      it passes to `resolve`, in call order. */
  datatype Effect = Effect(removals: nat, resolutions: seq<WaitForInclusionResponse>)

  /** The block handler: a missing or empty transaction list returns at once; otherwise the match
      branch and the deadline branch are each taken when their condition holds, and each removes
      the listener before resolving. */
  function Handle(targetBlock: int, hashes: seq<HexString>, n: Notification): (e: Effect)
    ensures e.removals == |e.resolutions| <= 2
    ensures n.transactions.None? || |n.transactions.value| == 0 ==> e == Effect(0, [])
    ensures forall i :: 0 <= i < |e.resolutions| ==> e.resolutions[i].blockNumber == n.blockNumber
    ensures |e.resolutions| == 2 ==> e.resolutions[0].status == Included && e.resolutions[1].status == Passed
    ensures (|e.resolutions| > 0 && e.resolutions[|e.resolutions| - 1].status == Passed) <==>
              n.transactions.Some? && |n.transactions.value| > 0 && n.blockNumber >= targetBlock
  {
    match n.transactions
    case None => Effect(0, [])
    case Some(txs) =>
      if |txs| == 0 then Effect(0, [])
      else
        var success := if AnyWatched(txs, hashes)
                       then [WaitForInclusionResponse(Included, n.blockNumber, Watched(txs, hashes))]
                       else [];
        var passed := if n.blockNumber >= targetBlock
                      then [WaitForInclusionResponse(Passed, n.blockNumber, [])]
                      else [];
        Effect(|success| + |passed|, success + passed)
  }

  /** A promise settles with the first value passed to `resolve`; later calls are ignored. */
  function Settle(resolutions: seq<WaitForInclusionResponse>): (r: Option<WaitForInclusionResponse>)
    ensures r.Some? <==> |resolutions| > 0
    ensures r.Some? ==> r.value == resolutions[0]
  {
    if |resolutions| == 0 then None else Some(resolutions[0])
  }

  /** Once a promise has been resolved, further `resolve` calls leave its value unchanged. */
  lemma LaterResolvesIgnored(earlier: seq<WaitForInclusionResponse>, later: seq<WaitForInclusionResponse>)
    requires |earlier| > 0
    ensures Settle(earlier + later) == Settle(earlier)
    ensures Settle(earlier + later) == Some(earlier[0])
  {
    assert (earlier + later)[0] == earlier[0];
  }

  // ---------------------------------------------------------------- the decision rule

  /** The transition rule for one notification: ignore a block without transactions; report
      inclusion when the block holds a watched hash; otherwise report the deadline when the block
      is at or past the target; otherwise keep watching. */
  function Decide(targetBlock: int, hashes: seq<HexString>, n: Notification): (r: Option<WaitForInclusionResponse>)
    ensures r.None? <==>
              || n.transactions.None?
              || |n.transactions.value| == 0
              || (!AnyWatched(n.transactions.value, hashes) && n.blockNumber < targetBlock)
    ensures r.Some? ==> r.value.blockNumber == n.blockNumber && ValidOutcome(targetBlock, hashes, r.value)
    ensures r.Some? ==> (r.value.status == Included <==> AnyWatched(n.transactions.value, hashes))
    ensures r.Some? && r.value.status == Included ==> r.value.transactions == Watched(n.transactions.value, hashes)
  {
    match n.transactions
    case None => None
    case Some(txs) =>
      AnyWatchedIffWatched(txs, hashes);
      if |txs| == 0 then None
      else
        var matched := Watched(txs, hashes);
        if |matched| > 0 then Some(WaitForInclusionResponse(Included, n.blockNumber, matched))
        else if n.blockNumber >= targetBlock then Some(WaitForInclusionResponse(Passed, n.blockNumber, []))
        else None
  }

  /** The handler as written settles exactly as the decision rule says, and it removes the listener
      exactly when it resolves: once per `resolve` call. */
  lemma HandlerSettlesAsDecided(targetBlock: int, hashes: seq<HexString>, n: Notification)
    ensures Settle(Handle(targetBlock, hashes, n).resolutions) == Decide(targetBlock, hashes, n)
    ensures Handle(targetBlock, hashes, n).removals == |Handle(targetBlock, hashes, n).resolutions|
    ensures Handle(targetBlock, hashes, n).removals > 0 <==> Decide(targetBlock, hashes, n).Some?
  {
  }

  // ---------------------------------------------------------------- the watcher

  /** The watcher's state: still subscribed, or settled with an outcome. */
  datatype Watch = Watching | Resolved(response: WaitForInclusionResponse)

  /** One notification delivered to the watcher. Once settled, the listener is gone and nothing
      changes; while watching, the promise settles with the handler's first resolution. */
  function Step(targetBlock: int, hashes: seq<HexString>, w: Watch, n: Notification): (s: Watch)
    ensures w.Resolved? ==> s == w
    ensures w.Watching? ==> (s.Resolved? <==> Decide(targetBlock, hashes, n).Some?)
    ensures w.Watching? && s.Resolved? ==> s.response == Decide(targetBlock, hashes, n).value
  {
    match w
    case Resolved(_) => w
    case Watching =>
      HandlerSettlesAsDecided(targetBlock, hashes, n);
      match Settle(Handle(targetBlock, hashes, n).resolutions)
      case None => Watching
      case Some(r) => Resolved(r)
  }

  /** The watcher after the notifications `ns`, delivered in order. */
  function Run(targetBlock: int, hashes: seq<HexString>, w: Watch, ns: seq<Notification>): (r: Watch)
    requires w.Resolved? ==> ValidOutcome(targetBlock, hashes, w.response)
    ensures w.Resolved? ==> r == w
    ensures r.Resolved? ==> ValidOutcome(targetBlock, hashes, r.response)
    ensures r.Resolved? && w.Watching? ==> exists i :: 0 <= i < |ns| && ns[i].blockNumber == r.response.blockNumber
    decreases |ns|
  {
    if |ns| == 0 then w
    else
      var r := Run(targetBlock, hashes, Step(targetBlock, hashes, w, ns[0]), ns[1..]);
      assert r.Resolved? && w.Watching? ==>
        ns[0].blockNumber == r.response.blockNumber
        || exists i :: 0 <= i < |ns[1..]| && ns[1..][i].blockNumber == r.response.blockNumber;
      r
  }

  /** `waitForInclusion(targetBlock, hashes)` fed with the notifications `ns`. */
  function WaitForInclusion(targetBlock: int, hashes: seq<HexString>, ns: seq<Notification>): (w: Watch)
    ensures w.Resolved? ==> ValidOutcome(targetBlock, hashes, w.response)
    ensures w.Resolved? ==> exists i :: 0 <= i < |ns| && ns[i].blockNumber == w.response.blockNumber
  {
    Run(targetBlock, hashes, Watching, ns)
  }

  // ---------------------------------------------------------------- properties

  /** A notification the decision rule acts on. */
  predicate Terminal(targetBlock: int, hashes: seq<HexString>, n: Notification) {
    Decide(targetBlock, hashes, n).Some?
  }

  /** Delivering notifications in two batches is delivering them all. */
  lemma {:induction false} RunAppend(targetBlock: int, hashes: seq<HexString>, w: Watch,
                                     a: seq<Notification>, b: seq<Notification>)
    requires w.Resolved? ==> ValidOutcome(targetBlock, hashes, w.response)
    ensures Run(targetBlock, hashes, w, a + b) == Run(targetBlock, hashes, Run(targetBlock, hashes, w, a), b)
    decreases |a|
  {
    if |a| == 0 {
      assert a + b == b;
    } else {
      assert (a + b)[0] == a[0];
      assert (a + b)[1..] == a[1..] + b;
      RunAppend(targetBlock, hashes, Step(targetBlock, hashes, w, a[0]), a[1..], b);
    }
  }

  /** The watcher settles exactly when some notification is terminal, and then with the outcome of
      the first terminal one; notifications after it change nothing. */
  lemma {:induction false} SettlesAtFirstTerminal(targetBlock: int, hashes: seq<HexString>, ns: seq<Notification>)
    ensures WaitForInclusion(targetBlock, hashes, ns).Resolved? <==>
              exists i :: 0 <= i < |ns| && Terminal(targetBlock, hashes, ns[i])
    ensures forall i :: 0 <= i < |ns| && Terminal(targetBlock, hashes, ns[i])
                        && (forall j :: 0 <= j < i ==> !Terminal(targetBlock, hashes, ns[j])) ==>
              WaitForInclusion(targetBlock, hashes, ns) == Resolved(Decide(targetBlock, hashes, ns[i]).value)
    decreases |ns|
  {
    if |ns| > 0 {
      var tail := ns[1..];
      if Terminal(targetBlock, hashes, ns[0]) {
        var s := Step(targetBlock, hashes, Watching, ns[0]);
        assert Run(targetBlock, hashes, Watching, ns) == Run(targetBlock, hashes, s, tail);
        assert Run(targetBlock, hashes, s, tail) == s;
        forall i | 0 <= i < |ns| && Terminal(targetBlock, hashes, ns[i])
                   && (forall j :: 0 <= j < i ==> !Terminal(targetBlock, hashes, ns[j]))
          ensures i == 0
        {
        }
      } else {
        SettlesAtFirstTerminal(targetBlock, hashes, tail);
        assert WaitForInclusion(targetBlock, hashes, ns) == WaitForInclusion(targetBlock, hashes, tail);
        forall i | 0 <= i < |tail| && Terminal(targetBlock, hashes, tail[i])
          ensures Terminal(targetBlock, hashes, ns[i + 1])
        {
          assert tail[i] == ns[i + 1];
        }
        forall i | 0 <= i < |ns| && Terminal(targetBlock, hashes, ns[i])
          ensures i > 0 && Terminal(targetBlock, hashes, tail[i - 1])
        {
          assert tail[i - 1] == ns[i];
        }
        forall i | 0 <= i < |ns| && Terminal(targetBlock, hashes, ns[i])
                   && (forall j :: 0 <= j < i ==> !Terminal(targetBlock, hashes, ns[j]))
          ensures WaitForInclusion(targetBlock, hashes, ns) == Resolved(Decide(targetBlock, hashes, ns[i]).value)
        {
          assert tail[i - 1] == ns[i];
          forall j | 0 <= j < i - 1
            ensures !Terminal(targetBlock, hashes, tail[j])
          {
            assert tail[j] == ns[j + 1];
          }
        }
      }
    }
  }

  /** Once settled, the watcher ignores every later notification. */
  lemma LaterNotificationsIgnored(targetBlock: int, hashes: seq<HexString>, a: seq<Notification>, b: seq<Notification>)
    requires WaitForInclusion(targetBlock, hashes, a).Resolved?
    ensures WaitForInclusion(targetBlock, hashes, a + b) == WaitForInclusion(targetBlock, hashes, a)
  {
    RunAppend(targetBlock, hashes, Watching, a, b);
  }

  /** A block whose transaction list is missing or empty causes no transition, even at or past the
      target block. */
  lemma EmptyBlockIgnored(targetBlock: int, hashes: seq<HexString>, w: Watch, blockNumber: int)
    ensures Step(targetBlock, hashes, w, Notification(blockNumber, None)) == w
    ensures Step(targetBlock, hashes, w, Notification(blockNumber, Some([]))) == w
  {
  }

  /** At or past the target, a block holding a watched hash makes the handler resolve twice, first
      with "success" and then with "passed", and the watcher settles with "success". */
  lemma InclusionBeatsDeadline(targetBlock: int, hashes: seq<HexString>, n: Notification)
    requires n.transactions.Some? && AnyWatched(n.transactions.value, hashes)
    requires n.blockNumber >= targetBlock
    ensures |Handle(targetBlock, hashes, n).resolutions| == 2
    ensures Handle(targetBlock, hashes, n).resolutions[1].status == Passed
    ensures Step(targetBlock, hashes, Watching, n)
         == Resolved(WaitForInclusionResponse(Included, n.blockNumber, Watched(n.transactions.value, hashes)))
  {
  }

  /** The deadline is honoured: once a block at or past the target with a non-empty transaction
      list has been delivered, the watcher has settled. */
  lemma DeadlineBoundsWait(targetBlock: int, hashes: seq<HexString>, ns: seq<Notification>, k: nat)
    requires k < |ns|
    requires ns[k].transactions.Some? && |ns[k].transactions.value| > 0
    requires ns[k].blockNumber >= targetBlock
    ensures WaitForInclusion(targetBlock, hashes, ns[..k + 1]).Resolved?
  {
    assert Terminal(targetBlock, hashes, ns[..k + 1][k]);
    SettlesAtFirstTerminal(targetBlock, hashes, ns[..k + 1]);
  }

  /** With target B, blocks B-1 and B holding only unwatched transactions and block B+1 holding a
      watched one, the watcher reports "passed" at B: block B is the deadline, and block B+1 is
      never examined. */
  lemma PassedBeforeLateInclusion(b: int, hashes: seq<HexString>, other: string, tx: HexString)
    requires other !in hashes && tx in hashes
    ensures WaitForInclusion(b, hashes,
              [Notification(b - 1, Some([other])), Notification(b, Some([other])), Notification(b + 1, Some([tx]))])
         == Resolved(WaitForInclusionResponse(Passed, b, []))
  {
    var ns := [Notification(b - 1, Some([other])), Notification(b, Some([other])), Notification(b + 1, Some([tx]))];
    assert !AnyWatched([other], hashes) by {
      assert forall i :: 0 <= i < |[other]| ==> [other][i] == other;
    }
    assert Decide(b, hashes, ns[0]).None?;
    assert Decide(b, hashes, ns[1]) == Some(WaitForInclusionResponse(Passed, b, []));
    var s1 := Step(b, hashes, Watching, ns[0]);
    assert s1 == Watching;
    var s2 := Step(b, hashes, s1, ns[1]);
    assert s2 == Resolved(WaitForInclusionResponse(Passed, b, []));
    assert Run(b, hashes, Watching, ns) == Run(b, hashes, s1, ns[1..]);
    assert ns[1..][0] == ns[1];
    assert Run(b, hashes, s1, ns[1..]) == Run(b, hashes, s2, ns[1..][1..]);
  }

  /** When the target block arrives without its transaction list, the watcher keeps waiting and
      reports inclusion in the next block. */
  lemma InclusionAfterEmptyDeadlineBlock(b: int, hashes: seq<HexString>, other: string, tx: HexString)
    requires other !in hashes && tx in hashes
    ensures WaitForInclusion(b, hashes,
              [Notification(b - 1, Some([other])), Notification(b, Some([])), Notification(b + 1, Some([tx]))])
         == Resolved(WaitForInclusionResponse(Included, b + 1, [tx]))
  {
    var ns := [Notification(b - 1, Some([other])), Notification(b, Some([])), Notification(b + 1, Some([tx]))];
    assert !AnyWatched([other], hashes) by {
      assert forall i :: 0 <= i < |[other]| ==> [other][i] == other;
    }
    assert AnyWatched([tx], hashes) by {
      assert [tx][0] == tx;
    }
    assert Watched([tx], hashes) == [tx] by {
      assert [tx][0] == tx;
      assert [tx][1..] == [];
    }
    var outcome := WaitForInclusionResponse(Included, b + 1, [tx]);
    assert Decide(b, hashes, ns[0]).None?;
    assert Decide(b, hashes, ns[1]).None?;
    assert Decide(b, hashes, ns[2]) == Some(outcome);
    var s1 := Step(b, hashes, Watching, ns[0]);
    var s2 := Step(b, hashes, s1, ns[1]);
    var s3 := Step(b, hashes, s2, ns[2]);
    assert s3 == Resolved(outcome);
    assert ns[1..][0] == ns[1];
    assert ns[1..][1..] == [ns[2]];
    assert Run(b, hashes, Watching, ns) == Run(b, hashes, s1, ns[1..]);
    assert Run(b, hashes, s1, ns[1..]) == Run(b, hashes, s2, [ns[2]]);
    assert Run(b, hashes, s2, [ns[2]]) == Run(b, hashes, s3, [ns[2]][1..]);
  }
}

=== FILE: relay.dfy ===
/** The relay client (core/flashbot.ts:26-265): every method builds the same JSON-RPC envelope
    around the caller's parameters, signs its serialization, POSTs it to the relay and classifies
    the reply with its own rule for embedded errors. `JSON.stringify` and `ethers.id` are
    functions of the client; the network is the `transport` parameter of each call. */
module RelayClient {
  import opened Wrappers
  import opened Types
  import opened Transport
  import Signer
  import Strings

  /** The `params` member of a request: one variant per relay method, each holding the array the
      caller passed. */
  datatype Params =
    | UserStatsParams(userStats: seq<GetUserStatsV2Data>)
    | BundleStatsParams(bundleStats: seq<GetBundleStatsV2Data>)
    | CancelBundleParams(cancels: seq<CancelBundleData>)
    | PrivateRawTransactionParams(rawTransactions: seq<SendPrivateRawTransactionData>)
    | PrivateTransactionParams(transactions: seq<SendPrivateTransactionData>)
    | CallBundleParams(callBundles: seq<CallBundleData>)
    | SendBundleParams(sendBundles: seq<SendBundleData>)

  /** The request object, fields in the order they are serialized. */
  datatype Body = Body(jsonrpc: string, id: int, rpcMethod: Method, params: Params)

  const JsonRpcVersion: string := "2.0"
  const RequestId: int := 1
  const ContentType: string := "application/json"

  /** The client's default body fields (version "2.0", id 1) followed by the method and the
      caller's parameters, passed through unchanged. */
  function Envelope(rpcMethod: Method, params: Params): (b: Body)
    ensures b.jsonrpc == "2.0" && b.id == 1
    ensures b.rpcMethod == rpcMethod && b.params == params
  {
    Body(JsonRpcVersion, RequestId, rpcMethod, params)
  }

  /** A client bound to one relay and one signing identity, with the serializer and the message
      hash it uses. */
  datatype Client = Client(
    relay: Relay,
    user: Signer.Wallet,
    stringify: Body -> string,
    id: string -> string)

  /** What one relay call did: the envelope it built, the request it POSTed (None when signing
      failed first) and the value it returned or the error it threw. */
  datatype Call<T> = Call(envelope: Body, sent: Option<HttpRequest>, outcome: Result<T, CallError>)

  /** `req` is the authenticated POST of `body`: sent to the client's relay as JSON, with a body
      that is the serialization of `body` and a signature header that names the signer and
      carries its signature of the hash of that very posted text. */
  predicate SignedFor(c: Client, body: Body, req: HttpRequest) {
    && req.url == c.relay.Url()
    && req.verb == "POST"
    && req.contentType == ContentType
    && req.body == c.stringify(body)
    && c.user.signMessage(c.id(req.body)).Success?
    && Strings.SplitAtFirst(req.signature, Signer.Separator)
         == Some((c.user.address, c.user.signMessage(c.id(req.body)).value))
  }

  /** What the client's wallet answers when asked to sign the hash of `body`'s serialization. */
  function Signing(c: Client, body: Body): Result<string, string> {
    c.user.signMessage(c.id(c.stringify(body)))
  }

  /** Builds the request for `body`, or the signing failure that stops it before anything is sent. */
  function Prepare(c: Client, body: Body): (r: Result<HttpRequest, CallError>)
    ensures r.Success? ==> SignedFor(c, body, r.value)
    ensures r.Failure? <==> Signing(c, body).Failure?
    ensures r.Failure? ==> r.error == SigningFailure(Signing(c, body).error)
  {
    var serialized := c.stringify(body);
    match Signer.GetSignature(c.user, c.id, serialized)
    case Failure(e) => Failure(SigningFailure(e))
    case Success(token) =>
      Success(HttpRequest(c.relay.Url(), "POST", ContentType, token, serialized))
  }

  /** One round trip: prepare, send through `transport`, classify the reply with `accept`. */
  function Post<T, R>(c: Client, body: Body, transport: HttpRequest -> Exchange<T>,
                      accept: T -> Result<R, CallError>): (r: Call<R>)
    ensures r.envelope == body
    ensures r.sent.None? <==> Prepare(c, body).Failure?
    ensures r.sent.Some? ==> SignedFor(c, body, r.sent.value)
    ensures r.sent.None? ==> r.outcome == Failure(Prepare(c, body).error)
    ensures r.sent.Some? ==> r.outcome == Receive(transport(r.sent.value), accept)
  {
    match Prepare(c, body)
    case Failure(e) => Call(body, None, Failure(e))
    case Success(req) => Call(body, Some(req), Receive(transport(req), accept))
  }

  /** The parsed body of a 2xx reply to the request a call sent, if there was one. */
  function Delivered<T>(transport: HttpRequest -> Exchange<T>, sent: Option<HttpRequest>): Option<T> {
    if sent.None? then None
    else
      var x := transport(sent.value);
      if x.Answered? && Ok(x.status) && x.json.Parsed? then Some(x.json.value) else None
  }

  // ---------------------------------------------------------------- embedded-error rules

  /** JavaScript truthiness of an optional string: present and non-empty. */
  predicate Truthy(s: Option<string>) {
    s.Some? && s.value != ""
  }

  /** The user-stats rule: a truthy `error` fails with it, else a truthy `message` fails with it,
      else the whole body is the result. */
  function AcceptUserStats(d: GetUserStatsV2Response): Result<GetUserStatsV2Response, CallError> {
    if Truthy(d.error) then Failure(RelayFailure(d.error.value))
    else if Truthy(d.message) then Failure(RelayFailure(d.message.value))
    else Success(d)
  }

  /** The send-bundle rule: any `error` object fails with its message, else the body is the result. */
  function AcceptSendBundle(d: SendBundleResponse): Result<SendBundleResponse, CallError> {
    if d.error.Some? then Failure(RelayFailure(d.error.value.message)) else Success(d)
  }

  /** The bundle-stats rule: no check at all. */
  function AcceptBundleStats(d: GetBundleStatsV2Response): Result<GetBundleStatsV2Response, CallError> {
    Success(d)
  }

  // ---------------------------------------------------------------- relay methods

  /** `getUserStats`: succeeds exactly when the signed request got a 2xx parsed reply with neither
      a truthy `error` nor a truthy `message`; `error` is consulted before `message`. */
  function GetUserStats(c: Client, params: seq<GetUserStatsV2Data>,
                        transport: HttpRequest -> Exchange<GetUserStatsV2Response>): (r: Call<GetUserStatsV2Response>)
    ensures r.envelope == Envelope(GetUserStatsV2, UserStatsParams(params))
    ensures r.sent.None? <==> Signing(c, r.envelope).Failure?
    ensures r.sent.None? ==> r.outcome == Failure(SigningFailure(Signing(c, r.envelope).error))
    ensures r.sent.Some? ==> SignedFor(c, r.envelope, r.sent.value)
    ensures r.outcome.Success? <==>
              Delivered(transport, r.sent).Some?
              && !Truthy(Delivered(transport, r.sent).value.error)
              && !Truthy(Delivered(transport, r.sent).value.message)
    ensures r.outcome.Success? ==> r.outcome.value == Delivered(transport, r.sent).value
    ensures Delivered(transport, r.sent).Some? && Truthy(Delivered(transport, r.sent).value.error) ==>
              r.outcome == Failure(RelayFailure(Delivered(transport, r.sent).value.error.value))
    ensures Delivered(transport, r.sent).Some? && !Truthy(Delivered(transport, r.sent).value.error)
              && Truthy(Delivered(transport, r.sent).value.message) ==>
              r.outcome == Failure(RelayFailure(Delivered(transport, r.sent).value.message.value))
  {
    Post(c, Envelope(GetUserStatsV2, UserStatsParams(params)), transport, AcceptUserStats)
  }

  /** What `sendBundle` accepts: its own parameter records, or anything structurally wider, such
      as the simulation parameters `simulate` hands it. */
  type SendBundleInput = p: Params | p.SendBundleParams? || p.CallBundleParams? witness SendBundleParams([])

  /** `sendBundle`: succeeds exactly when the signed request got a 2xx parsed reply without an
      `error` object, and then returns that reply. */
  function SendBundle(c: Client, params: SendBundleInput,
                      transport: HttpRequest -> Exchange<SendBundleResponse>): (r: Call<SendBundleResponse>)
    ensures r.envelope == Envelope(Method.SendBundle, params)
    ensures r.sent.None? <==> Signing(c, r.envelope).Failure?
    ensures r.sent.None? ==> r.outcome == Failure(SigningFailure(Signing(c, r.envelope).error))
    ensures r.sent.Some? ==> SignedFor(c, r.envelope, r.sent.value)
    ensures r.outcome.Success? <==> Delivered(transport, r.sent).Some? && Delivered(transport, r.sent).value.error.None?
    ensures r.outcome.Success? ==> r.outcome.value == Delivered(transport, r.sent).value
    ensures Delivered(transport, r.sent).Some? && Delivered(transport, r.sent).value.error.Some? ==>
              r.outcome == Failure(RelayFailure(Delivered(transport, r.sent).value.error.value.message))
  {
    Post(c, Envelope(Method.SendBundle, params), transport, AcceptSendBundle)
  }

  /** `getBundleStatsV2`: succeeds exactly when the signed request got a 2xx parsed reply, whatever
      that reply holds, and returns it. */
  function GetBundleStatsV2(c: Client, params: seq<GetBundleStatsV2Data>,
                            transport: HttpRequest -> Exchange<GetBundleStatsV2Response>): (r: Call<GetBundleStatsV2Response>)
    ensures r.envelope == Envelope(Method.GetBundleStatsV2, BundleStatsParams(params))
    ensures r.sent.None? <==> Signing(c, r.envelope).Failure?
    ensures r.sent.None? ==> r.outcome == Failure(SigningFailure(Signing(c, r.envelope).error))
    ensures r.sent.Some? ==> SignedFor(c, r.envelope, r.sent.value)
    ensures r.outcome.Success? <==> Delivered(transport, r.sent).Some?
    ensures r.outcome.Success? ==> r.outcome.value == Delivered(transport, r.sent).value
  {
    Post(c, Envelope(Method.GetBundleStatsV2, BundleStatsParams(params)), transport, AcceptBundleStats)
  }

  // ---------------------------------------------------------------- properties across methods

  /** A reply that carries an embedded error never yields a result, whatever its HTTP status:
      for user stats a truthy `error` or `message`, for bundles an `error` object. */
  lemma EmbeddedErrorNeverSucceeds(
    c: Client,
    userParams: seq<GetUserStatsV2Data>, ut: HttpRequest -> Exchange<GetUserStatsV2Response>,
    sendParams: SendBundleInput, st: HttpRequest -> Exchange<SendBundleResponse>)
    ensures var r := GetUserStats(c, userParams, ut);
            r.sent.Some? && ut(r.sent.value).Answered? && ut(r.sent.value).json.Parsed?
            && (Truthy(ut(r.sent.value).json.value.error) || Truthy(ut(r.sent.value).json.value.message))
            ==> r.outcome.Failure?
    ensures var r := SendBundle(c, sendParams, st);
            r.sent.Some? && st(r.sent.value).Answered? && st(r.sent.value).json.Parsed?
            && st(r.sent.value).json.value.error.Some?
            ==> r.outcome.Failure?
  {
  }
}

=== FILE: signer.dfy ===
/** The request signer: the `X-Flashbots-Signature` token "<address>:<signature>", where the
    signature is the wallet's personal-message signature of the Keccak-256 id of the serialized
    request body (core/flashbot.ts:50-52). Hashing and signing are cryptography outside the
    model, so they are carried as functions. */
module Signer {
  import opened Wrappers
  import Strings

  predicate IsHexDigit(c: char) {
    '0' <= c <= '9' || 'a' <= c <= 'f' || 'A' <= c <= 'F'
  }

  /** An account address: "0x" followed by forty hex digits (checksummed or not). */
  predicate IsAddress(s: string) {
    |s| == 42 && s[0] == '0' && s[1] == 'x' && forall i :: 2 <= i < |s| ==> IsHexDigit(s[i])
  }

  type Address = s: string | IsAddress(s) witness "0x0000000000000000000000000000000000000000"

  /** The signing identity: its address and its (possibly failing) message signer. */
  datatype Wallet = Wallet(address: Address, signMessage: string -> Result<string, string>)

  const Separator: char := ':'

  /** An address never contains the separator. */
  lemma AddressHasNoSeparator(a: Address)
    ensures Separator !in a
  {
  }

  function Token(address: Address, signature: string): string {
    address + [Separator] + signature
  }

  /** A token splits at its first separator into the signing address and the signature, whatever
      the signature holds. */
  lemma TokenSplit(address: Address, signature: string)
    ensures Strings.SplitAtFirst(Token(address, signature), Separator) == Some((address, signature))
  {
    AddressHasNoSeparator(address);
    Strings.SplitJoin(address, Separator, signature);
  }

  /** The token for a serialized body: the wallet signs `id(body)`; a signing failure is
      propagated unchanged. */
  function GetSignature(user: Wallet, id: string -> string, serialized: string): (r: Result<string, string>)
    ensures r.Failure? <==> user.signMessage(id(serialized)).Failure?
    ensures r.Failure? ==> r.error == user.signMessage(id(serialized)).error
    ensures r.Success? ==>
              Strings.SplitAtFirst(r.value, Separator) == Some((user.address, user.signMessage(id(serialized)).value))
  {
    match user.signMessage(id(serialized))
    case Failure(e) => Failure(e)
    case Success(sig) =>
      TokenSplit(user.address, sig);
      Success(Token(user.address, sig))
  }

  ghost predicate Injective<A(!new), B>(f: A -> B) {
    forall x, y :: f(x) == f(y) ==> x == y
  }

  /** The token binds the whole serialized body: when hashing and signing are injective, two
      different bodies never yield the same token. */
  lemma TokenBindsBody(user: Wallet, id: string -> string, b1: string, b2: string)
    requires Injective(id)
    requires forall m1, m2 :: user.signMessage(m1) == user.signMessage(m2) && user.signMessage(m1).Success? ==> m1 == m2
    requires GetSignature(user, id, b1).Success? && GetSignature(user, id, b2).Success?
    requires b1 != b2
    ensures GetSignature(user, id, b1).value != GetSignature(user, id, b2).value
  {
  }
}

=== FILE: simulator.dfy ===
/** The bundle simulator (core/flashbot.ts:142-172): `simulate` calls `eth_callBundle` and, when
    the relay reports no error, returns the simulation result together with a deferred `send`
    that calls `sendBundle` on the same client with the very parameters that were simulated. The
    deferred action is represented by the client and the parameters it is closed over; `RunSend`
    is what invoking it does. */
module Simulator {
  import opened Wrappers
  import Types
  import opened Transport
  import opened RelayClient

  /** The deferred `send` of a simulation: a call of `sendBundle` by the simulating client on
      these parameters. */
  datatype SendAction = SendAction(client: Client, params: seq<Types.CallBundleData>)

  /** What a successful `simulate` returns. */
  datatype Simulation = Simulation(simulationResult: Types.CallBundleResult, send: SendAction)

  /** The simulate rule: any `error` object fails with its message before a send action exists;
      otherwise the result is paired with a send of `params`. */
  function AcceptSimulation(c: Client, params: seq<Types.CallBundleData>): Types.CallBundleResponse -> Result<Simulation, CallError> {
    (d: Types.CallBundleResponse) => if d.error.Some? then Failure(RelayFailure(d.error.value.message))
         else Success(Simulation(d.result, SendAction(c, params)))
  }

  /** `simulate`: succeeds exactly when the signed request got a 2xx parsed reply without an
      `error` object; the result is that reply's `result`, and the send action holds this client
      and the caller's parameters. */
  function Simulate(c: Client, params: seq<Types.CallBundleData>,
                    transport: HttpRequest -> Exchange<Types.CallBundleResponse>): (r: Call<Simulation>)
    ensures r.envelope == Envelope(Types.CallBundle, CallBundleParams(params))
    ensures r.sent.None? <==> Signing(c, r.envelope).Failure?
    ensures r.sent.None? ==> r.outcome == Failure(SigningFailure(Signing(c, r.envelope).error))
    ensures r.sent.Some? ==> SignedFor(c, r.envelope, r.sent.value)
    ensures r.outcome.Success? <==> Delivered(transport, r.sent).Some? && Delivered(transport, r.sent).value.error.None?
    ensures r.outcome.Success? ==>
              r.outcome.value == Simulation(Delivered(transport, r.sent).value.result, SendAction(c, params))
    ensures Delivered(transport, r.sent).Some? && Delivered(transport, r.sent).value.error.Some? ==>
              r.outcome == Failure(RelayFailure(Delivered(transport, r.sent).value.error.value.message))
  {
    Post(c, Envelope(Types.CallBundle, CallBundleParams(params)), transport, AcceptSimulation(c, params))
  }

  /** Invoking a send action: the captured client's `sendBundle` on the parameters it holds,
      posted to that client's relay and signed by that client's wallet. */
  function RunSend(action: SendAction,
                   transport: HttpRequest -> Exchange<Types.SendBundleResponse>): (r: Call<Types.SendBundleResponse>)
    ensures r.envelope.jsonrpc == "2.0" && r.envelope.id == 1
    ensures r.envelope.rpcMethod.WireName() == "eth_sendBundle"
    ensures r.envelope.params == CallBundleParams(action.params)
    ensures r.envelope == Envelope(Types.SendBundle, CallBundleParams(action.params))
    ensures r.sent.None? <==> Signing(action.client, r.envelope).Failure?
    ensures r.sent.None? ==> r.outcome == Failure(SigningFailure(Signing(action.client, r.envelope).error))
    ensures r.sent.Some? ==> SignedFor(action.client, r.envelope, r.sent.value)
    ensures r.sent.Some? ==> r.sent.value.url == action.client.relay.Url()
    ensures r.outcome.Success? <==> Delivered(transport, r.sent).Some? && Delivered(transport, r.sent).value.error.None?
  {
    SendBundle(action.client, CallBundleParams(action.params), transport)
  }

  /** After a successful simulation, its send action posts the same parameters under
      `eth_sendBundle` through the simulating client: the two envelopes differ in the method
      alone, the send goes to the same relay under the same signer, and it is exactly a direct
      `sendBundle` call of that client with the simulated parameters. */
  lemma SendReusesSimulatedParams(c: Client, params: seq<Types.CallBundleData>,
                                  simulated: HttpRequest -> Exchange<Types.CallBundleResponse>,
                                  sent: HttpRequest -> Exchange<Types.SendBundleResponse>)
    requires Simulate(c, params, simulated).outcome.Success?
    ensures var sim := Simulate(c, params, simulated);
            var send := RunSend(sim.outcome.value.send, sent);
            && send.envelope.params == sim.envelope.params
            && send.envelope.jsonrpc == sim.envelope.jsonrpc
            && send.envelope.id == sim.envelope.id
            && send.envelope.rpcMethod.WireName() == "eth_sendBundle"
            && sim.envelope.rpcMethod.WireName() == "eth_callBundle"
            && (send.sent.Some? ==> send.sent.value.url == c.relay.Url() && SignedFor(c, send.envelope, send.sent.value))
            && (send.sent.Some? && sim.sent.Some? ==> send.sent.value.url == sim.sent.value.url)
            && send == SendBundle(c, CallBundleParams(params), sent)
  {
  }

  /** A simulation whose reply carries an `error` object fails with that error's message, so no
      send action is ever produced. */
  lemma SimulationErrorHasNoSend(c: Client, params: seq<Types.CallBundleData>,
                                 transport: HttpRequest -> Exchange<Types.CallBundleResponse>)
    requires var r := Simulate(c, params, transport);
             r.sent.Some? && transport(r.sent.value).Answered? && transport(r.sent.value).json.Parsed?
             && transport(r.sent.value).json.value.error.Some?
    ensures Simulate(c, params, transport).outcome.Failure?
    ensures var r := Simulate(c, params, transport);
            Ok(transport(r.sent.value).status) ==>
              r.outcome == Failure(RelayFailure(transport(r.sent.value).json.value.error.value.message))
  {
  }

  /** Every relay call sends the fixed envelope: version "2.0", id 1, the method's own wire name and
      the caller's parameters untouched, serialized into the posted body that the signature
      header signs. */
  lemma EveryCallSendsFixedEnvelope(
    c: Client,
    userParams: seq<Types.GetUserStatsV2Data>, ut: HttpRequest -> Exchange<Types.GetUserStatsV2Response>,
    callParams: seq<Types.CallBundleData>, ct: HttpRequest -> Exchange<Types.CallBundleResponse>,
    sendParams: SendBundleInput, st: HttpRequest -> Exchange<Types.SendBundleResponse>,
    statsParams: seq<Types.GetBundleStatsV2Data>, bt: HttpRequest -> Exchange<Types.GetBundleStatsV2Response>)
    ensures var e := GetUserStats(c, userParams, ut).envelope;
            e.jsonrpc == "2.0" && e.id == 1 && e.rpcMethod.WireName() == "flashbots_getUserStatsV2"
            && e.params == UserStatsParams(userParams)
    ensures var e := Simulate(c, callParams, ct).envelope;
            e.jsonrpc == "2.0" && e.id == 1 && e.rpcMethod.WireName() == "eth_callBundle"
            && e.params == CallBundleParams(callParams)
    ensures var e := SendBundle(c, sendParams, st).envelope;
            e.jsonrpc == "2.0" && e.id == 1 && e.rpcMethod.WireName() == "eth_sendBundle"
            && e.params == sendParams
    ensures var e := GetBundleStatsV2(c, statsParams, bt).envelope;
            e.jsonrpc == "2.0" && e.id == 1 && e.rpcMethod.WireName() == "flashbots_getBundleStatsV2"
            && e.params == BundleStatsParams(statsParams)
    ensures var r := GetUserStats(c, userParams, ut); r.sent.Some? ==> r.sent.value.body == c.stringify(r.envelope)
    ensures var r := Simulate(c, callParams, ct); r.sent.Some? ==> r.sent.value.body == c.stringify(r.envelope)
    ensures var r := SendBundle(c, sendParams, st); r.sent.Some? ==> r.sent.value.body == c.stringify(r.envelope)
    ensures var r := GetBundleStatsV2(c, statsParams, bt); r.sent.Some? ==> r.sent.value.body == c.stringify(r.envelope)
  {
  }

  /** A non-2xx reply fails every method with "<status> <statusText>" and its body is never read:
      replacing the body changes nothing. */
  lemma HttpErrorFailsEveryMethod(
    c: Client, status: nat, statusText: string,
    userParams: seq<Types.GetUserStatsV2Data>, u1: JsonBody<Types.GetUserStatsV2Response>, u2: JsonBody<Types.GetUserStatsV2Response>,
    callParams: seq<Types.CallBundleData>, k1: JsonBody<Types.CallBundleResponse>, k2: JsonBody<Types.CallBundleResponse>,
    sendParams: SendBundleInput, s1: JsonBody<Types.SendBundleResponse>, s2: JsonBody<Types.SendBundleResponse>,
    statsParams: seq<Types.GetBundleStatsV2Data>, b1: JsonBody<Types.GetBundleStatsV2Response>, b2: JsonBody<Types.GetBundleStatsV2Response>)
    requires !Ok(status)
    ensures var r := GetUserStats(c, userParams, _ => Answered(status, statusText, u1));
            r.sent.Some? ==> r.outcome == Failure(HttpFailure(status, statusText))
    ensures GetUserStats(c, userParams, _ => Answered(status, statusText, u1))
         == GetUserStats(c, userParams, _ => Answered(status, statusText, u2))
    ensures var r := Simulate(c, callParams, _ => Answered(status, statusText, k1));
            r.sent.Some? ==> r.outcome == Failure(HttpFailure(status, statusText))
    ensures Simulate(c, callParams, _ => Answered(status, statusText, k1))
         == Simulate(c, callParams, _ => Answered(status, statusText, k2))
    ensures var r := SendBundle(c, sendParams, _ => Answered(status, statusText, s1));
            r.sent.Some? ==> r.outcome == Failure(HttpFailure(status, statusText))
    ensures SendBundle(c, sendParams, _ => Answered(status, statusText, s1))
         == SendBundle(c, sendParams, _ => Answered(status, statusText, s2))
    ensures var r := GetBundleStatsV2(c, statsParams, _ => Answered(status, statusText, b1));
            r.sent.Some? ==> r.outcome == Failure(HttpFailure(status, statusText))
    ensures GetBundleStatsV2(c, statsParams, _ => Answered(status, statusText, b1))
         == GetBundleStatsV2(c, statsParams, _ => Answered(status, statusText, b2))
  {
  }
}

=== FILE: strings.dfy ===
/** Splitting a string at the first occurrence of a separator character. */
module Strings {
  import opened Wrappers

  /** The parts of `s` before and after the first `sep`, or None when `s` has no `sep`. */
  function SplitAtFirst(s: string, sep: char): (r: Option<(string, string)>)
    ensures r.None? <==> sep !in s
    ensures r.Some? ==> s == r.value.0 + [sep] + r.value.1 && sep !in r.value.0
  {
    if |s| == 0 then None
    else if s[0] == sep then Some(([], s[1..]))
    else
      match SplitAtFirst(s[1..], sep)
      case None => None
      case Some(parts) =>
        assert s == [s[0]] + s[1..];
        Some(([s[0]] + parts.0, parts.1))
  }

  /** Joining two parts with `sep` and splitting again recovers them, provided the first part
      holds no `sep`; the second part may hold any number of them. */
  lemma {:induction false} SplitJoin(a: string, sep: char, b: string)
    requires sep !in a
    ensures SplitAtFirst(a + [sep] + b, sep) == Some((a, b))
  {
    if |a| == 0 {
      assert a + [sep] + b == [sep] + b;
    } else {
      var s := a + [sep] + b;
      assert s[0] == a[0];
      assert s[1..] == a[1..] + [sep] + b;
      SplitJoin(a[1..], sep, b);
      assert [a[0]] + a[1..] == a;
    }
  }
}

=== FILE: transport.dfy ===
/** One HTTP round trip to the relay and the classification its reply receives before any
    method-specific check: a transport failure, a non-2xx status (reported as
    "<status> <statusText>" with the body left unread), an unparsable body, or a parsed body
    (core/flashbot.ts:98-109). `fetch` and `res.json()` are outside the model: the reply
    arrives as an `Exchange` whose body is already parsed or known to be unparsable. */
module Transport {
  import opened Wrappers
  import Strings

  /** What a relay call POSTs: the target URL, the HTTP verb, the two headers and the body. */
  datatype HttpRequest = HttpRequest(
    url: string,
    verb: string,
    contentType: string,
    signature: string,
    body: string)

  /** The body of a reply as `res.json()` would deliver it. */
  datatype JsonBody<T> = Parsed(value: T) | Unparsable(reason: string)

  /** The reply to one request: the transport failed, or the relay answered. */
  datatype Exchange<T> =
    | Unreachable(reason: string)
    | Answered(status: nat, statusText: string, json: JsonBody<T>)

  /** The Fetch Standard's `ok`: a status in the range 200 to 299. */
  predicate Ok(status: nat) {
    200 <= status <= 299
  }

  /** Every way a relay call can fail. */
  datatype CallError =
    | SigningFailure(reason: string)
    | NetworkFailure(reason: string)
    | HttpFailure(status: nat, statusText: string)
    | JsonFailure(reason: string)
    | RelayFailure(message: string)

  // ---------------------------------------------------------------- decimal numbers

  predicate IsDigit(c: char) {
    '0' <= c <= '9'
  }

  function DigitChar(d: nat): (c: char)
    requires d < 10
    ensures IsDigit(c)
  {
    (d + '0' as int) as char
  }

  function DigitValue(c: char): (d: Option<nat>)
    ensures d.Some? <==> IsDigit(c)
    ensures d.Some? ==> d.value < 10 && DigitChar(d.value) == c
  {
    if IsDigit(c) then Some((c as int - '0' as int) as nat) else None
  }

  /** The decimal rendering of a number, as a template literal prints it: digits only, and no
      leading zero unless the number is zero itself. */
  function DecimalString(n: nat): (s: string)
    ensures |s| > 0
    ensures forall i :: 0 <= i < |s| ==> IsDigit(s[i])
    ensures |s| == 1 || s[0] != '0'
    ensures n < 10 <==> |s| == 1
  {
    if n < 10 then [DigitChar(n)] else DecimalString(n / 10) + [DigitChar(n % 10)]
  }

  /** The number a non-empty string of decimal digits denotes. */
  function ParseDecimal(s: string): (n: Option<nat>)
    ensures n.Some? ==> |s| > 0
  {
    if |s| == 0 then None
    else
      match DigitValue(s[|s| - 1])
      case None => None
      case Some(d) =>
        if |s| == 1 then Some(d)
        else
          match ParseDecimal(s[..|s| - 1])
          case None => None
          case Some(v) => Some(10 * v + d)
  }

  lemma {:induction false} DecimalRoundTrip(n: nat)
    ensures ParseDecimal(DecimalString(n)) == Some(n)
  {
    var s := DecimalString(n);
    if n >= 10 {
      DecimalRoundTrip(n / 10);
      assert s[..|s| - 1] == DecimalString(n / 10);
      assert s[|s| - 1] == DigitChar(n % 10);
    }
  }

  // ---------------------------------------------------------------- error messages

  /** The message of the error a failed call throws: an HTTP failure reads
      "<status> <statusText>" with the status in canonical decimal, from which both parts can be
      read back; every other failure carries the text it was raised with. */
  function Message(f: CallError): (m: string)
    ensures f.HttpFailure? ==> m == DecimalString(f.status) + " " + f.statusText
    ensures f.HttpFailure? ==> ParseStatusLine(m) == Some((f.status, f.statusText))
    ensures f.SigningFailure? || f.NetworkFailure? || f.JsonFailure? ==> m == f.reason
    ensures f.RelayFailure? ==> m == f.message
  {
    match f
    case SigningFailure(reason) => reason
    case NetworkFailure(reason) => reason
    case HttpFailure(status, statusText) =>
      StatusLineRoundTrip(status, statusText);
      DecimalString(status) + " " + statusText
    case JsonFailure(reason) => reason
    case RelayFailure(message) => message
  }

  /** Reads a "<status> <statusText>" message back into its two parts. */
  function ParseStatusLine(m: string): Option<(nat, string)> {
    match Strings.SplitAtFirst(m, ' ')
    case None => None
    case Some(parts) =>
      match ParseDecimal(parts.0)
      case None => None
      case Some(status) => Some((status, parts.1))
  }

  /** A status line "<status> <statusText>" yields its status and status text back, even when
      the status text holds spaces. */
  lemma StatusLineRoundTrip(status: nat, statusText: string)
    ensures ParseStatusLine(DecimalString(status) + " " + statusText) == Some((status, statusText))
  {
    var digits := DecimalString(status);
    assert ' ' !in digits by {
      forall i | 0 <= i < |digits|
        ensures digits[i] != ' '
      {
        assert IsDigit(digits[i]);
      }
    }
    assert digits + " " + statusText == digits + [' '] + statusText;
    Strings.SplitJoin(digits, ' ', statusText);
    DecimalRoundTrip(status);
  }

  // ---------------------------------------------------------------- classification

  /** The common part of every relay method's reply handling: a transport failure propagates, a
      non-2xx status fails with its status line before the body is looked at, an unparsable body
      fails, and a parsed body is handed to the method's own check `accept`. */
  function Receive<T, R>(x: Exchange<T>, accept: T -> Result<R, CallError>): (r: Result<R, CallError>)
    ensures x.Unreachable? ==> r == Failure(NetworkFailure(x.reason))
    ensures x.Answered? && !Ok(x.status) ==> r == Failure(HttpFailure(x.status, x.statusText))
    ensures x.Answered? && Ok(x.status) && x.json.Unparsable? ==> r == Failure(JsonFailure(x.json.reason))
    ensures x.Answered? && Ok(x.status) && x.json.Parsed? ==> r == accept(x.json.value)
  {
    match x
    case Unreachable(reason) => Failure(NetworkFailure(reason))
    case Answered(status, statusText, json) =>
      if !Ok(status) then Failure(HttpFailure(status, statusText))
      else
        match json
        case Unparsable(reason) => Failure(JsonFailure(reason))
        case Parsed(data) => accept(data)
  }

  /** A non-2xx reply is never read: two replies that differ only in their bodies, and two
      method checks, give the same failure. */
  lemma HttpErrorIgnoresBody<T, R>(status: nat, statusText: string, j1: JsonBody<T>, j2: JsonBody<T>,
                                   accept1: T -> Result<R, CallError>, accept2: T -> Result<R, CallError>)
    requires !Ok(status)
    ensures Receive(Answered(status, statusText, j1), accept1) == Receive(Answered(status, statusText, j2), accept2)
    ensures Receive(Answered(status, statusText, j1), accept1).Failure?
  {
  }
}

=== FILE: types.dfy ===
/** The wire-level vocabulary of the relay protocol: hex strings, relay endpoints, method names,
    builder and hint names, request parameter records, response records and the inclusion
    outcome (constants/types.ts). Optional TypeScript fields are `Option`s; TypeScript `number`
    fields are modelled as `int`. */
module Types {
  import opened Wrappers

  // ---------------------------------------------------------------- hex strings

  /** A template-literal `0x${string}`: any string that starts with "0x". */
  predicate IsHex(s: string) {
    |s| >= 2 && s[0] == '0' && s[1] == 'x'
  }

  type HexString = s: string | IsHex(s) witness "0x"

  /** Every string of the form "0x" + rest is a hex string, and every hex string has that form. */
  lemma HexStringShape(s: string)
    ensures IsHex(s) <==> |s| >= 2 && s == "0x" + s[2..]
  {
  }

  // ---------------------------------------------------------------- relays

  /** The three relay endpoints a client can be bound to. */
  datatype Relay = Mainnet | Sepolia | Goerli {
    function Url(): string {
      match this
      case Mainnet => "https://relay.flashbots.net"
      case Sepolia => "https://relay-sepolia.flashbots.net"
      case Goerli => "https://relay-goerli.flashbots.net"
    }
  }

  /** The relay whose URL is `url`, if there is one. */
  function RelayOfUrl(url: string): (r: Option<Relay>)
    ensures r.Some? ==> r.value.Url() == url
  {
    if url == "https://relay.flashbots.net" then Some(Mainnet)
    else if url == "https://relay-sepolia.flashbots.net" then Some(Sepolia)
    else if url == "https://relay-goerli.flashbots.net" then Some(Goerli)
    else None
  }

  /** Each relay is recovered from its URL, so the three URLs are pairwise distinct. */
  lemma RelayUrlRoundTrip(r: Relay, r': Relay)
    ensures RelayOfUrl(r.Url()) == Some(r)
    ensures r != r' ==> r.Url() != r'.Url()
  {
  }

  // ---------------------------------------------------------------- methods

  /** The relay's JSON-RPC methods. */
  datatype Method =
    | GetUserStatsV2
    | GetBundleStatsV2
    | SendPrivateTransaction
    | SendPrivateRawTransaction
    | CancelBundle
    | CallBundle
    | SendBundle
  {
    /** The method name as it appears in the request envelope. */
    function WireName(): string {
      match this
      case GetUserStatsV2 => "flashbots_getUserStatsV2"
      case GetBundleStatsV2 => "flashbots_getBundleStatsV2"
      case SendPrivateTransaction => "eth_sendPrivateTransaction"
      case SendPrivateRawTransaction => "eth_sendPrivateRawTransaction"
      case CancelBundle => "eth_cancelBundle"
      case CallBundle => "eth_callBundle"
      case SendBundle => "eth_sendBundle"
    }
  }

  /** The method whose wire name is `name`, if there is one. */
  function MethodOfWireName(name: string): (m: Option<Method>)
    ensures m.Some? ==> m.value.WireName() == name
  {
    if name == "flashbots_getUserStatsV2" then Some(GetUserStatsV2)
    else if name == "flashbots_getBundleStatsV2" then Some(GetBundleStatsV2)
    else if name == "eth_sendPrivateTransaction" then Some(SendPrivateTransaction)
    else if name == "eth_sendPrivateRawTransaction" then Some(SendPrivateRawTransaction)
    else if name == "eth_cancelBundle" then Some(CancelBundle)
    else if name == "eth_callBundle" then Some(CallBundle)
    else if name == "eth_sendBundle" then Some(SendBundle)
    else None
  }

  /** Each method is recovered from its wire name, so the seven wire names are pairwise distinct. */
  lemma MethodWireNameRoundTrip(m: Method, m': Method)
    ensures MethodOfWireName(m.WireName()) == Some(m)
    ensures m != m' ==> m.WireName() != m'.WireName()
  {
    match m
    case GetUserStatsV2 =>
    case GetBundleStatsV2 =>
    case SendPrivateTransaction =>
    case SendPrivateRawTransaction =>
    case CancelBundle =>
    case CallBundle =>
    case SendBundle =>
  }

  // ---------------------------------------------------------------- builders and hints

  /** The block builders a private transaction may be routed to. */
  datatype Builder =
    | Default | Flashbots | F1b | Rsync | BeaverBuild | Builder0x69 | Titan | EigenPhi
    | BobaBuilder | GambitLabs | Payload | Loki | BuildAI | JetBuilder | TBuilder
    | PenguinBuild | BobTheBuilder | Btcs | BloXroute
  {
    function Name(): string {
      match this
      case Default => "default"
      case Flashbots => "flashbots"
      case F1b => "f1b.io"
      case Rsync => "rsync"
      case BeaverBuild => "beaverbuild.org"
      case Builder0x69 => "builder0x69"
      case Titan => "Titan"
      case EigenPhi => "EigenPhi"
      case BobaBuilder => "boba-builder"
      case GambitLabs => "Gambit Labs"
      case Payload => "payload"
      case Loki => "Loki"
      case BuildAI => "BuildAI"
      case JetBuilder => "JetBuilder"
      case TBuilder => "tbuilder"
      case PenguinBuild => "penguinbuild"
      case BobTheBuilder => "bobthebuilder"
      case Btcs => "BTCS"
      case BloXroute => "bloXroute"
    }
  }

  /** The builder called `name`, if there is one. */
  function BuilderOfName(name: string): (b: Option<Builder>)
    ensures b.Some? ==> b.value.Name() == name
  {
    if name == "default" then Some(Default)
    else if name == "flashbots" then Some(Flashbots)
    else if name == "f1b.io" then Some(F1b)
    else if name == "rsync" then Some(Rsync)
    else if name == "beaverbuild.org" then Some(BeaverBuild)
    else if name == "builder0x69" then Some(Builder0x69)
    else if name == "Titan" then Some(Titan)
    else if name == "EigenPhi" then Some(EigenPhi)
    else if name == "boba-builder" then Some(BobaBuilder)
    else if name == "Gambit Labs" then Some(GambitLabs)
    else if name == "payload" then Some(Payload)
    else if name == "Loki" then Some(Loki)
    else if name == "BuildAI" then Some(BuildAI)
    else if name == "JetBuilder" then Some(JetBuilder)
    else if name == "tbuilder" then Some(TBuilder)
    else if name == "penguinbuild" then Some(PenguinBuild)
    else if name == "bobthebuilder" then Some(BobTheBuilder)
    else if name == "BTCS" then Some(Btcs)
    else if name == "bloXroute" then Some(BloXroute)
    else None
  }

  /** Each builder is recovered from its name, so the nineteen names are pairwise distinct. */
  lemma BuilderNameRoundTrip(b: Builder, b': Builder)
    ensures BuilderOfName(b.Name()) == Some(b)
    ensures b != b' ==> b.Name() != b'.Name()
  {
    match b
    case Default =>
    case Flashbots =>
    case F1b =>
    case Rsync =>
    case BeaverBuild =>
    case Builder0x69 =>
    case Titan =>
    case EigenPhi =>
    case BobaBuilder =>
    case GambitLabs =>
    case Payload =>
    case Loki =>
    case BuildAI =>
    case JetBuilder =>
    case TBuilder =>
    case PenguinBuild =>
    case BobTheBuilder =>
    case Btcs =>
    case BloXroute =>
  }

  /** The kinds of hint a private transaction may disclose. */
  datatype HintName = Calldata | Logs | DefaultLogs | FunctionSelector | ContractAddress | Hash | TxHash
  {
    function Name(): string {
      match this
      case Calldata => "calldata"
      case Logs => "logs"
      case DefaultLogs => "default_logs"
      case FunctionSelector => "function_selector"
      case ContractAddress => "contract_address"
      case Hash => "hash"
      case TxHash => "tx_hash"
    }
  }

  /** The hint called `name`, if there is one. */
  function HintOfName(name: string): (h: Option<HintName>)
    ensures h.Some? ==> h.value.Name() == name
  {
    if name == "calldata" then Some(Calldata)
    else if name == "logs" then Some(Logs)
    else if name == "default_logs" then Some(DefaultLogs)
    else if name == "function_selector" then Some(FunctionSelector)
    else if name == "contract_address" then Some(ContractAddress)
    else if name == "hash" then Some(Hash)
    else if name == "tx_hash" then Some(TxHash)
    else None
  }

  /** Each hint is recovered from its name, so the seven names are pairwise distinct. */
  lemma HintNameRoundTrip(h: HintName, h': HintName)
    ensures HintOfName(h.Name()) == Some(h)
    ensures h != h' ==> h.Name() != h'.Name()
  {
  }

  // ---------------------------------------------------------------- request parameters

  datatype GetBundleStatsV2Data = GetBundleStatsV2Data(bundleHash: HexString, blockNumber: HexString)

  datatype GetUserStatsV2Data = GetUserStatsV2Data(blockNumber: HexString)

  datatype CancelBundleData = CancelBundleData(txHash: HexString)

  datatype Refund = Refund(address: HexString, percent: int)

  datatype Privacy = Privacy(hints: Option<seq<HintName>>, builders: Option<seq<Builder>>)

  datatype Validity = Validity(refund: Option<seq<Refund>>)

  datatype Preferences = Preferences(fast: bool, privacy: Option<Privacy>, validity: Option<Validity>)

  datatype SendPrivateRawTransactionData =
    SendPrivateRawTransactionData(tx: HexString, preferences: Option<Preferences>)

  /** The raw private-transaction parameters extended with an optional last block. */
  datatype SendPrivateTransactionData =
    SendPrivateTransactionData(tx: HexString, preferences: Option<Preferences>, maxBlockNumber: Option<HexString>)

  /** Adds `maxBlockNumber` to raw private-transaction parameters. */
  function Extend(raw: SendPrivateRawTransactionData, maxBlockNumber: Option<HexString>): SendPrivateTransactionData {
    SendPrivateTransactionData(raw.tx, raw.preferences, maxBlockNumber)
  }

  /** The raw private-transaction parameters a private-transaction record extends. */
  function Base(p: SendPrivateTransactionData): SendPrivateRawTransactionData {
    SendPrivateRawTransactionData(p.tx, p.preferences)
  }

  /** Extending adds exactly `maxBlockNumber` and keeps every other field: `Extend` and `Base`
      are mutually inverse. */
  lemma ExtendBaseInverse(raw: SendPrivateRawTransactionData, maxBlockNumber: Option<HexString>, p: SendPrivateTransactionData)
    ensures Base(Extend(raw, maxBlockNumber)) == raw
    ensures Extend(raw, maxBlockNumber).maxBlockNumber == maxBlockNumber
    ensures Extend(Base(p), p.maxBlockNumber) == p
  {
  }

  /** The state a bundle is simulated on: a block number, or the literal "latest". */
  datatype StateBlock = AtBlock(number: HexString) | Latest {
    function Wire(): string {
      match this
      case AtBlock(n) => n
      case Latest => "latest"
    }
  }

  /** The state block a wire string denotes, if any. */
  function StateBlockOfWire(s: string): (b: Option<StateBlock>)
    ensures b.Some? ==> b.value.Wire() == s
    ensures b.None? <==> s != "latest" && !IsHex(s)
  {
    if s == "latest" then Some(Latest)
    else if IsHex(s) then Some(AtBlock(s))
    else None
  }

  /** A state block is recovered from its wire string: "latest" is never a hex string. */
  lemma StateBlockRoundTrip(b: StateBlock)
    ensures StateBlockOfWire(b.Wire()) == Some(b)
  {
  }

  datatype CallBundleData = CallBundleData(
    txs: seq<HexString>,
    blockNumber: HexString,
    stateBlockNumber: StateBlock,
    timestamp: Option<int>)

  datatype SendBundleData = SendBundleData(
    txs: seq<HexString>,
    blockNumber: HexString,
    minTimestamp: Option<int>,
    maxTimestamp: Option<int>,
    revertingTxHashes: Option<seq<HexString>>,
    replacementUuid: Option<string>,
    builders: Option<seq<Builder>>)

  // ---------------------------------------------------------------- responses

  datatype UserStats = UserStats(
    allTimeGasSimulated: string,
    allTimeValidatorPayments: string,
    isHighPriority: bool,
    last1dGasSimulated: string,
    last1dValidatorPayments: string,
    last7dGasSimulated: string,
    last7dValidatorPayments: string)

  /** The user-stats response reports an error as a bare `error` string or a bare `message` string. */
  datatype GetUserStatsV2Response = GetUserStatsV2Response(
    id: int,
    result: UserStats,
    jsonrpc: string,
    error: Option<string>,
    message: Option<string>)

  /** The JSON-RPC error object of the bundle responses. */
  datatype RpcError = RpcError(code: int, message: string)

  datatype TxSimulation = TxSimulation(
    txHash: string,
    gasUsed: int,
    gasPrice: string,
    gasFees: string,
    fromAddress: string,
    toAddress: string,
    coinbaseDiff: string,
    ethSentToCoinbase: string,
    error: Option<string>,
    value: string)

  datatype CallBundleResult = CallBundleResult(
    results: seq<TxSimulation>,
    coinbaseDiff: string,
    gasFees: string,
    ethSentToCoinbase: string,
    bundleGasPrice: string,
    totalGasUsed: int,
    stateBlockNumber: int,
    bundleHash: string)

  datatype CallBundleResponse = CallBundleResponse(
    id: int,
    jsonrpc: string,
    result: CallBundleResult,
    error: Option<RpcError>)

  datatype SendBundleResult = SendBundleResult(bundleHash: string, smart: Option<bool>)

  datatype SendBundleResponse = SendBundleResponse(
    id: int,
    jsonrpc: string,
    result: SendBundleResult,
    error: Option<RpcError>)

  datatype BundleStats = BundleStats(
    isSimulated: bool,
    isHighPriority: Option<bool>,
    receivedAt: Option<string>,
    simulatedAt: Option<string>)

  /** The bundle-stats response has no error field at all. */
  datatype GetBundleStatsV2Response = GetBundleStatsV2Response(id: int, result: BundleStats, jsonrpc: string)

  // ---------------------------------------------------------------- inclusion outcome

  datatype InclusionStatus = Included | Passed {
    function Wire(): string {
      match this
      case Included => "success"
      case Passed => "passed"
    }
  }

  /** The status a wire string denotes: only "success" and "passed" denote one. */
  function InclusionStatusOfWire(s: string): (st: Option<InclusionStatus>)
    ensures st.Some? <==> s == "success" || s == "passed"
    ensures st.Some? ==> st.value.Wire() == s
  {
    if s == "success" then Some(Included)
    else if s == "passed" then Some(Passed)
    else None
  }

  /** Each status is recovered from its wire string, and the two wire strings differ. */
  lemma InclusionStatusRoundTrip(st: InclusionStatus)
    ensures InclusionStatusOfWire(st.Wire()) == Some(st)
    ensures Included.Wire() != Passed.Wire()
  {
  }

  datatype WaitForInclusionResponse = WaitForInclusionResponse(
    status: InclusionStatus,
    blockNumber: int,
    transactions: seq<HexString>)
}

=== FILE: wrappers.dfy ===
/** Optional values and success/failure results shared by every module of the model. */
module Wrappers {

  /** A value that may be absent: an optional field of a JSON object, or a `null`. */
  datatype Option<+T> = None | Some(value: T)

  /** The outcome of an operation that either returns a value or throws an error. */
  datatype Result<+R, +E> = Success(value: R) | Failure(error: E)
}
